=== FILE: README.md ===
# Google autocomplete CLI — a Dafny model

`autosuggest.py` is an interactive command-line tool with one purpose. It asks
for a language, then reads keywords and fetches Google's autocomplete
suggestions for each one. It prints the suggestions as a ranked list. When the
language is written right to left, text is reshaped and reordered first.

This project models the tool's behaviour, with everything outside Python
replaced by parameters:

- `Text`: the two string operations applied to input lines. `str.strip()`,
  with Python's exact whitespace set, is applied to every line read.
  `str.lower()` is applied only to keyword lines and continue answers. A
  language answer is matched against the table as stripped, case-sensitively.
- `Config`: the language table and `load_language_config`, which reads the
  file or writes and returns the two built-in entries.
- `Language`: `get_language_choice`. A blank answer picks English, a table
  key picks its entry, and anything else asks again.
- `Fetcher`: `get_google_autocomplete` reduced to a function of the reply the
  transport delivers. That reply is a timeout, a transport failure, or a
  status with a body.
- `Display`: `process_rtl_text` and `display_suggestions`, as a sequence of
  printed lines.
- `Commands`: how the main loop reads a keyword line and a continue answer.
- `Session`: `main` as a state machine. Each line read by `input()` is one
  step. The network and the right-to-left transform come from an environment
  `Env(net, bidi)`. A run produces a trace of events: bindings, fetches,
  listings, prompts and farewells.
- `LoopProperties`: what the loop promises, for single steps and for whole
  runs.
- `Scenarios`: whole sessions on concrete input.

After a search, the next line read always answers the continue prompt
(`autosuggest.py:178-179`), never the keyword prompt. So "quit" typed right
after a search is only a continue answer: it is neither "n" nor "no", and the
loop goes back to the keyword prompt and keeps running. The lemma
`Scenarios.QuitAtContinuePromptDoesNotEnd` states this for the input
`["", "cat", "quit"]`, and `Scenarios.QuitAtKeywordPromptEnds` shows that
"quit" ends the session when it is typed at the keyword prompt.

## Model

| member | source | states |
|---|---|---|
| Text.Trim | autosuggest.py:154 | The stripped line is a contiguous slice of the input. Only whitespace is cut from either side. The result neither starts nor ends with whitespace. |
| Text.TrimEmptyIffBlank | autosuggest.py:168 | A line strips to the empty string exactly when it is whitespace only. |
| Text.TrimKeepsTrimmed | autosuggest.py:124 | Text without whitespace at either end is left unchanged by strip. |
| Text.TrimIdempotent | autosuggest.py:154 | Stripping twice gives the same result as stripping once. |
| Text.Lower | autosuggest.py:157 | Lower-casing keeps the length and maps each character on its own: upper-case ASCII letters become lower-case, everything else is kept. |
| Text.LowerMatchesIffCaseVariant | autosuggest.py:157 | A line lower-cases to a lower-case word exactly when it spells that word with each letter in either case. |
| Config.Load | autosuggest.py:16-35 | With no file, the table is exactly the two built-in entries ("1" English/en/left to right, "2" Hebrew/he/right to left), it is written to the file, and the call reports that defaults were created. With a file, its table is returned as it is and nothing is written. |
| Config.LoadIsStable | autosuggest.py:29-35 | Loading again after a load reads back the same table and writes nothing. |
| Language.Choose | autosuggest.py:124-133 | A blank answer binds English, left to right, whatever the table holds. Any other answer is accepted exactly when its stripped form is a table key, and then binds that entry's code and direction. The accepted binding is always the default or a table entry. |
| Language.Select | autosuggest.py:123-133 | The prompt reads answers until the first accepted one and returns its binding. Every earlier answer was rejected. If none is accepted, every answer was read and rejected. |
| Fetcher.Fetch | autosuggest.py:48-68 | The fetch succeeds exactly when the reply has a non-error status and a JSON array of at least two elements, and then returns element 1 unchanged. Every failure returns an empty list and reports one error. A timeout is reported as a timeout. A well-formed status with a malformed body is reported as an unexpected format. |
| Fetcher.AsList | autosuggest.py:57-58 | A list of suggestions is iterated as it is, and a string in its place character by character. The result is empty exactly when Python's `not` finds the fetched value false, and its length is Python's `len` of the value. |
| Fetcher.SuccessYieldsSuggestions | autosuggest.py:56-58 | A 2xx reply `[query, [s1..sn]]` yields exactly `[s1..sn]`, whatever the echoed query. |
| Display.ProcessRtl | autosuggest.py:70-84 | Left-to-right text is returned unchanged. Right-to-left text goes through the reshaping and reordering transform. |
| Display.Numbered | autosuggest.py:103-105 | There is one ranked line per suggestion, in order, ranks counting up by one, each text through the direction processor. |
| Display.Render | autosuggest.py:95-107 | The listing has a header with the processed keyword and a rule 35 longer than it. Then comes either a single "no suggestions" line or one ranked line per suggestion followed by their count. |
| Display.RenderReadBack | autosuggest.py:103-105 | Reading the ranked lines back gives every suggestion in order, ranked 1..n. For left-to-right text that is the suggestion list itself. |
| Display.TotalMatchesItems | autosuggest.py:107 | A count line appears only when there are suggestions, and its number equals the number of ranked lines. |
| LoopProperties.ListingFollowsPythonTruth | autosuggest.py:99-107 | For any fetched value, the listing says "no suggestions found" exactly when Python finds the value false. Otherwise the listing ends with a count equal to Python's `len` of the value. |
| Commands.Classify | autosuggest.py:154-170 | A line is an exit command exactly when its stripped, lower-cased form is quit/exit/q. It is the language command exactly when that form is "lang". It is blank exactly when it is whitespace only. Otherwise it is searched as its stripped, non-empty text. |
| Commands.QuitInAnyCase | autosuggest.py:157-159 | The exit words are recognised in any mix of cases, with any surrounding whitespace, and no other line is. |
| Commands.ChangeLanguageInAnyCase | autosuggest.py:162-165 | "lang" is recognised in any mix of cases, with any surrounding whitespace, and no other line is. |
| Commands.SearchIsNoCommand | autosuggest.py:157-173 | A searched keyword is never an exit word or "lang" in any case, and never blank. |
| Commands.DeclinesIff | autosuggest.py:178-181 | The continue answer ends the session exactly when its stripped form is n/no in any case. |
| Session.Start | autosuggest.py:142-143 | The session starts at the language prompt on the loaded table, with no binding, no fetch yet, and the configuration file present afterwards. |
| Session.ChooseStep | autosuggest.py:123-133 | An accepted answer binds the language chosen for it, moves to the keyword prompt and emits exactly one binding event. A rejected answer leaves the state as it was and emits only a rejection. No fetch happens. |
| Session.SearchStep | autosuggest.py:172-178 | A search announces the keyword through the direction processor and fetches once, with the keyword and the bound code. It reports a failed fetch once and lists the fetched result with the bound direction, empty or not. Then it asks to continue. The next state differs from the old one only in its phase, now the continue prompt, and in the query counter, which goes up by one: binding and configuration file are unchanged. |
| Session.ReadStep | autosuggest.py:154-175 | A keyword line never changes the binding, and every fetch it makes is counted. |
| Session.AskStep | autosuggest.py:178-181 | A continue answer never fetches. The next state differs from the old one only in its phase: finished on n/no, otherwise back at the keyword prompt. Binding, configuration file and query counter are unchanged. |
| Session.Step | autosuggest.py:143-181 | Only a language choice changes the binding, with a single binding event. Every fetch and listing uses the binding in force. A finished session does nothing. The number of fetches equals the growth of the query counter. |
| Session.Run | autosuggest.py:151-181 | Over any sequence of lines, the final binding is the last one chosen, every fetch and listing uses the binding in force at that point, and fetches are counted. |
| LoopProperties.ExitWordEndsLoop | autosuggest.py:157-159 | An exit word in any case ends the loop at once, with a farewell only: no fetch, no continue prompt. Only the phase changes: binding, configuration file and query counter are untouched. |
| LoopProperties.LangReopensSelection | autosuggest.py:162-165 | "lang" reopens the language prompt on a freshly loaded table without fetching or rebinding. The configuration file becomes what that load leaves behind, and nothing else in the state changes. |
| LoopProperties.LangThenAnswer | autosuggest.py:162-165 | After "lang", an accepted answer becomes the binding and the loop returns to the keyword prompt. A rejected one leaves everything as it was. |
| LoopProperties.AnswerAtLanguagePrompt | autosuggest.py:123-133 | At any language prompt, the one after start-up included, an accepted answer becomes the binding and leads to the keyword prompt. A rejected one leaves the state as it was. |
| LoopProperties.PromptRunsUntilAccepted | autosuggest.py:123-133 | Fed some rejected answers and then an accepted one, the prompt emits one rejection per rejected answer. It then binds the accepted answer's language and moves to the keyword prompt. |
| LoopProperties.PromptRejectsAll | autosuggest.py:123-133 | When every answer is rejected, the prompt is still open after all of them, with one rejection per answer. |
| LoopProperties.SelectAgreesWithPrompt | autosuggest.py:123-133 | The loop fed the answers `Language.Select` read ends bound to `Select`'s result, at the keyword prompt. If `Select` accepts nothing, the loop is still at the language prompt. |
| LoopProperties.BlankKeywordChangesNothing | autosuggest.py:168-170 | A blank keyword changes no state and fetches nothing. |
| LoopProperties.SearchFetchesOnceThenAsks | autosuggest.py:172-178 | Any other keyword is fetched exactly once with the bound code and listed exactly once with the bound direction, even after a failed fetch. The continue prompt follows. Only the phase and the query counter change. |
| LoopProperties.FailedFetchStillListed | autosuggest.py:174-175 | A failed fetch is reported once and still listed, as "no suggestions found". |
| LoopProperties.ContinueAnswer | autosuggest.py:178-181 | At the continue prompt, n/no in any case ends the loop. Every other answer, including an empty one, returns to the keyword prompt. There is no fetch either way, and nothing but the phase changes. |
| LoopProperties.FinishedReadsNothing | autosuggest.py:157-159 | Once the loop has ended, no further line has any effect. |
| LoopProperties.FetchesUseLatestChoice | autosuggest.py:143-175 | In any session, every fetch carries the language code, and every listing the direction, chosen at the most recent language prompt. |
| LoopProperties.StepShape | autosuggest.py:154-181 | A step fetches, lists and asks to continue equally often. A farewell is its only event and leaves the loop finished. |
| LoopProperties.RunShape | autosuggest.py:151-181 | Over a whole run there are as many listings and continue prompts as fetches. There is at most one farewell, and it is the last event. The loop ends exactly when it says farewell. |
| Scenarios.HebrewSessionEndsOnNo | autosuggest.py:123-181 | Choosing "2" binds Hebrew. A keyword is then fetched with code "he" and listed right to left, and "n" at the continue prompt ends the session, giving the exact trace. |
| Scenarios.QuitAtContinuePromptDoesNotEnd | autosuggest.py:172-181 | After a blank choice and a search, "quit" answers the continue prompt and the loop goes back to the keyword prompt, with the exact trace. |
| Scenarios.QuitAtKeywordPromptEnds | autosuggest.py:154-181 | After answering "y" to continue, "quit" at the keyword prompt ends the session with a farewell. |

## Left out

- HTTP and URL encoding (`quote`, the request URL, `requests.get` with its 10 s timeout). The transport is a parameter `net` that delivers a reply per query.
- JSON decoding. Only bodies that are not JSON, or that are a top-level array of strings and string lists, are modelled. A body that decodes to an object, a number or a string raises `KeyError`/`TypeError` or indexes into a string in the code; the model does not cover those cases.
- The reshaping and bidirectional reordering libraries. `process_rtl_text`'s right-to-left branch applies an arbitrary transform `bidi` passed as a parameter.
- File I/O in `load_language_config`. The file is an optional table. Its JSON layout (`{"languages": …}`) and a file without a `languages` key are not modelled. Neither is a file that exists but is not valid JSON: `json.load` (`autosuggest.py:34-35`) raises there, uncaught, and the program stops. An optional table cannot represent such a file.
- The configuration file is fixed for the whole session. The code re-reads it at every "lang" (`autosuggest.py:116`, 29-35), so it would pick up an edited file or recreate a deleted one. The model has no step that edits or deletes the file, so every "lang" reloads the table the session started with.
- `KeyboardInterrupt`, end of input in `input()`, and `sys.exit`. A run simply stops when its lines run out.
- The exact text of printed messages, emoji, the menu listing and the `{i:2d}` rank padding. Printing is modelled as structured events and lines.
- Text.Lower: lower-cases ASCII letters only. Python's `str.lower()` also maps other Unicode letters. No such mapping turns a line containing a non-ASCII character into quit/exit/q/lang/n/no, so no command decision is affected.
- Language.Select: does not restate that the accepted binding is offered by the table. That fact is stated by `Language.Choose` for each answer.

=== FILE: commands.dfy ===
/** How the main loop reads a keyword line and a continue answer. */
module Commands {
  import opened Text

  /** What a keyword line asks for. */
  datatype Command = Quit | ChangeLanguage | Blank | Search(keyword: string)

  const ExitWords: set<string> := {"quit", "exit", "q"}

  const LanguageWord: string := "lang"

  const DeclineWords: set<string> := {"n", "no"}

  /** The keyword line's meaning. The exit words are matched first, then the
      language word, then emptiness; anything left is searched as trimmed. */
  function Classify(line: string): (c: Command)
    ensures c == Quit <==> Lower(Trim(line)) in ExitWords
    ensures c == ChangeLanguage <==> Lower(Trim(line)) == LanguageWord
    ensures c == Blank <==> AllSpace(line)
    ensures c.Search? ==> c.keyword == Trim(line) && c.keyword != []
  {
    TrimEmptyIffBlank(line);
    var keyword := Trim(line);
    if Lower(keyword) in ExitWords then Quit
    else if Lower(keyword) == LanguageWord then ChangeLanguage
    else if keyword == [] then Blank
    else Search(keyword)
  }

  /** The spellings a trimmed keyword may have to count as an exit word. */
  lemma ExitWordSpellings(t: string)
    ensures Lower(t) in ExitWords <==> CaseVariant(t, "quit") || CaseVariant(t, "exit") || CaseVariant(t, "q")
  {
    LowerMatchesIffCaseVariant(t, "quit");
    LowerMatchesIffCaseVariant(t, "exit");
    LowerMatchesIffCaseVariant(t, "q");
  }

  /** The exit words are recognised in any mix of cases, around any whitespace. */
  lemma QuitInAnyCase(line: string)
    ensures Classify(line) == Quit <==>
              CaseVariant(Trim(line), "quit") || CaseVariant(Trim(line), "exit") || CaseVariant(Trim(line), "q")
  {
    ExitWordSpellings(Trim(line));
  }

  /** The language word is recognised in any mix of cases, around any whitespace. */
  lemma ChangeLanguageInAnyCase(line: string)
    ensures Classify(line) == ChangeLanguage <==> CaseVariant(Trim(line), "lang")
  {
    LowerMatchesIffCaseVariant(Trim(line), LanguageWord);
  }

  /** Corollary of `Classify`: whitespace-only input is a blank line, neither a
      command nor a search. */
  lemma WhitespaceIsBlank(line: string)
    requires AllSpace(line)
    ensures Classify(line) == Blank
  {
  }

  /** A search keyword is never an exit word or the language word, in any case. */
  lemma SearchIsNoCommand(line: string)
    requires Classify(line).Search?
    ensures !CaseVariant(Classify(line).keyword, "quit") && !CaseVariant(Classify(line).keyword, "exit")
    ensures !CaseVariant(Classify(line).keyword, "q") && !CaseVariant(Classify(line).keyword, "lang")
    ensures AllSpace(line) == false
  {
    QuitInAnyCase(line);
    ChangeLanguageInAnyCase(line);
  }

  /** The continue prompt's answer ends the session when it is "n" or "no". */
  predicate Declines(answer: string) {
    Lower(Trim(answer)) in DeclineWords
  }

  /** The spellings a trimmed answer may have to decline. */
  lemma DeclineWordSpellings(t: string)
    ensures Lower(t) in DeclineWords <==> t in {"n", "N", "no", "No", "nO", "NO"}
  {
    LowerMatchesIffCaseVariant(t, "n");
    LowerMatchesIffCaseVariant(t, "no");
    if CaseVariant(t, "n") {
      assert t == [t[0]];
    }
    if CaseVariant(t, "no") {
      assert t == [t[0], t[1]];
    }
  }

  /** "n" and "no" are accepted in any case, around any whitespace; every other
      answer, including an empty one, continues. */
  lemma DeclinesIff(answer: string)
    ensures Declines(answer) <==> Trim(answer) in {"n", "N", "no", "No", "nO", "NO"}
  {
    DeclineWordSpellings(Trim(answer));
  }

  /** Corollary of `DeclinesIff`: an empty or whitespace-only answer continues. */
  lemma BlankAnswerContinues(answer: string)
    requires AllSpace(answer)
    ensures !Declines(answer)
  {
    TrimEmptyIffBlank(answer);
  }
}

=== FILE: config.dfy ===
/** The language table and its load-or-initialise step (`load_language_config`). */
module Config {
  import opened Wrappers

  /** One language the user can pick: its request code, display name and
      whether its script is written right to left. */
  datatype Entry = Entry(code: string, name: string, rtl: bool)

  /** Selection key (what the user types) to language. */
  type Table = map<string, Entry>

  /** The two built-in languages written when no configuration file exists. */
  const DefaultTable: Table :=
    map["1" := Entry("en", "English", false), "2" := Entry("he", "Hebrew", true)]

  /** The effective table, the configuration file afterwards (`None` when
      absent), and whether the defaults were just written. */
  datatype Loaded = Loaded(table: Table, file: Option<Table>, created: bool)

  /** Reads the table from the file, or writes and returns the defaults when the
      file does not exist. An existing file is returned as it is. */
  function Load(file: Option<Table>): (r: Loaded)
    ensures r.file == Some(r.table)
    ensures r.created <==> file.None?
    ensures file.Some? ==> r.table == file.value
    ensures file.None? ==> r.table.Keys == {"1", "2"}
    ensures file.None? ==> r.table["1"] == Entry("en", "English", false)
    ensures file.None? ==> r.table["2"] == Entry("he", "Hebrew", true)
  {
    match file
    case None => Loaded(DefaultTable, Some(DefaultTable), true)
    case Some(t) => Loaded(t, file, false)
  }

  /** Loading again after a load reads back the same table and writes nothing. */
  lemma LoadIsStable(file: Option<Table>)
    ensures Load(Load(file).file).table == Load(file).table
    ensures Load(Load(file).file).file == Load(file).file
    ensures !Load(Load(file).file).created
  {
  }
}

=== FILE: display.dfy ===
/** Text direction (`process_rtl_text`) and the suggestion listing
    (`display_suggestions`). */
module Display {

  /** `process_rtl_text`: text is shown as it is unless the language is right
      to left, when it goes through `bidi` (glyph reshaping followed by
      bidirectional reordering, which the model leaves abstract). */
  function ProcessRtl(bidi: string -> string, text: string, rtl: bool): (r: string)
    ensures !rtl ==> r == text
    ensures rtl ==> r == bidi(text)
  {
    if rtl then bidi(text) else text
  }

  /** The separator under the header is this much longer than the keyword. */
  const RuleExtra: nat := 35

  /** One printed line of the listing. */
  datatype Line =
    | Header(keyword: string)
    | Rule(width: nat)
    | NoneFound
    | Item(rank: nat, text: string)
    | Total(count: nat)

  /** The suggestions as ranked lines, ranks counting up from `first`. */
  function Numbered(bidi: string -> string, items: seq<string>, rtl: bool, first: nat): (r: seq<Line>)
    ensures |r| == |items|
    ensures forall i :: 0 <= i < |items| ==> r[i] == Item(first + i, ProcessRtl(bidi, items[i], rtl))
  {
    if items == [] then []
    else [Item(first, ProcessRtl(bidi, items[0], rtl))] + Numbered(bidi, items[1..], rtl, first + 1)
  }

  /** The listing for one query: header, separator, then either a "none found"
      line or the ranked suggestions and their count. */
  function Render(bidi: string -> string, keyword: string, suggestions: seq<string>, rtl: bool): (r: seq<Line>)
    ensures |r| >= 3
    ensures r[0] == Header(ProcessRtl(bidi, keyword, rtl))
    ensures r[1] == Rule(|ProcessRtl(bidi, keyword, rtl)| + RuleExtra)
    ensures suggestions == [] ==> r[2..] == [NoneFound]
    ensures suggestions != [] ==>
              && |r| == |suggestions| + 3
              && (forall i :: 0 <= i < |suggestions| ==> r[i + 2] == Item(i + 1, ProcessRtl(bidi, suggestions[i], rtl)))
              && r[|r| - 1] == Total(|suggestions|)
  {
    var shown := ProcessRtl(bidi, keyword, rtl);
    var head := [Header(shown), Rule(|shown| + RuleExtra)];
    if suggestions == [] then head + [NoneFound]
    else head + Numbered(bidi, suggestions, rtl, 1) + [Total(|suggestions|)]
  }

  /** The texts of the ranked lines, in the order they are printed. */
  function ItemTexts(lines: seq<Line>): seq<string> {
    if lines == [] then []
    else if lines[0].Item? then [lines[0].text] + ItemTexts(lines[1..])
    else ItemTexts(lines[1..])
  }

  /** The ranks of the ranked lines, in the order they are printed. */
  function Ranks(lines: seq<Line>): seq<nat> {
    if lines == [] then []
    else if lines[0].Item? then [lines[0].rank] + Ranks(lines[1..])
    else Ranks(lines[1..])
  }

  lemma {:induction false} ItemTextsAppend(a: seq<Line>, b: seq<Line>)
    ensures ItemTexts(a + b) == ItemTexts(a) + ItemTexts(b)
    ensures Ranks(a + b) == Ranks(a) + Ranks(b)
  {
    if a == [] {
      assert a + b == b;
    } else {
      assert (a + b)[1..] == a[1..] + b;
      ItemTextsAppend(a[1..], b);
    }
  }

  lemma {:induction false} NumberedReadBack(bidi: string -> string, items: seq<string>, rtl: bool, first: nat)
    ensures |ItemTexts(Numbered(bidi, items, rtl, first))| == |items|
    ensures forall i :: 0 <= i < |items| ==>
              ItemTexts(Numbered(bidi, items, rtl, first))[i] == ProcessRtl(bidi, items[i], rtl)
    ensures |Ranks(Numbered(bidi, items, rtl, first))| == |items|
    ensures forall i :: 0 <= i < |items| ==> Ranks(Numbered(bidi, items, rtl, first))[i] == first + i
  {
    if items != [] {
      var rest := Numbered(bidi, items[1..], rtl, first + 1);
      NumberedReadBack(bidi, items[1..], rtl, first + 1);
      assert Numbered(bidi, items, rtl, first) == [Item(first, ProcessRtl(bidi, items[0], rtl))] + rest;
      ItemTextsAppend([Item(first, ProcessRtl(bidi, items[0], rtl))], rest);
    }
  }

  /** Reading the ranked lines back gives every suggestion, in order, each
      through the direction processor, ranked 1..n; with left-to-right text
      that is the suggestion list itself. */
  lemma RenderReadBack(bidi: string -> string, keyword: string, suggestions: seq<string>, rtl: bool)
    ensures |ItemTexts(Render(bidi, keyword, suggestions, rtl))| == |suggestions|
    ensures forall i :: 0 <= i < |suggestions| ==>
              ItemTexts(Render(bidi, keyword, suggestions, rtl))[i] == ProcessRtl(bidi, suggestions[i], rtl)
    ensures |Ranks(Render(bidi, keyword, suggestions, rtl))| == |suggestions|
    ensures forall i :: 0 <= i < |suggestions| ==> Ranks(Render(bidi, keyword, suggestions, rtl))[i] == i + 1
    ensures !rtl ==> ItemTexts(Render(bidi, keyword, suggestions, rtl)) == suggestions
  {
    RenderItems(bidi, keyword, suggestions, rtl);
    NumberedReadBack(bidi, suggestions, rtl, 1);
  }

  /** The ranked lines of a listing are exactly the numbered suggestions. */
  lemma RenderItems(bidi: string -> string, keyword: string, suggestions: seq<string>, rtl: bool)
    ensures ItemTexts(Render(bidi, keyword, suggestions, rtl)) == ItemTexts(Numbered(bidi, suggestions, rtl, 1))
    ensures Ranks(Render(bidi, keyword, suggestions, rtl)) == Ranks(Numbered(bidi, suggestions, rtl, 1))
  {
    var shown := ProcessRtl(bidi, keyword, rtl);
    var head := [Header(shown), Rule(|shown| + RuleExtra)];
    var r := Render(bidi, keyword, suggestions, rtl);
    NoItemsIn(head);
    if suggestions == [] {
      assert r == head + [NoneFound];
      NoItemsIn([NoneFound]);
      ItemTextsAppend(head, [NoneFound]);
    } else {
      var body := Numbered(bidi, suggestions, rtl, 1);
      assert r == (head + body) + [Total(|suggestions|)];
      NoItemsIn([Total(|suggestions|)]);
      ItemTextsAppend(head, body);
      ItemTextsAppend(head + body, [Total(|suggestions|)]);
    }
  }

  lemma {:induction false} NoItemsIn(lines: seq<Line>)
    requires forall i :: 0 <= i < |lines| ==> !lines[i].Item?
    ensures ItemTexts(lines) == [] && Ranks(lines) == []
  {
    if lines != [] {
      NoItemsIn(lines[1..]);
    }
  }

  /** A count line appears only when there are suggestions, and then it
      equals the number of ranked lines above it. */
  lemma TotalMatchesItems(bidi: string -> string, keyword: string, suggestions: seq<string>, rtl: bool, i: nat)
    requires i < |Render(bidi, keyword, suggestions, rtl)|
    requires Render(bidi, keyword, suggestions, rtl)[i].Total?
    ensures suggestions != []
    ensures Render(bidi, keyword, suggestions, rtl)[i].count == |ItemTexts(Render(bidi, keyword, suggestions, rtl))|
  {
    RenderReadBack(bidi, keyword, suggestions, rtl);
  }
}

=== FILE: fetch.dfy ===
/** The suggestion fetcher (`get_google_autocomplete`) with the HTTP exchange
    and the JSON decoder reduced to the reply they deliver. */
module Fetcher {
  import opened Wrappers

  /** One element of the decoded top-level JSON array: a string (the echoed
      query) or an array of strings (the suggestions). */
  datatype Value = Text(s: string) | TextList(items: seq<string>)

  /** The response body: not JSON at all, or a top-level JSON array. */
  datatype Body = NotJson | JsonArray(elems: seq<Value>)

  /** What the transport delivers for one request. */
  datatype Reply =
    | TimedOut
    | Unreachable(detail: string)
    | Answered(status: int, body: Body)

  datatype Cause = Transport(detail: string) | HttpStatus(status: int)

  /** The three failure messages the fetcher prints. */
  datatype FetchError = Timeout | RequestFailed(cause: Cause) | UnexpectedFormat

  /** What the fetcher returns, and the one failure message it printed, if any. */
  datatype Report = Report(result: Value, error: Option<FetchError>)

  /** The statuses `raise_for_status` turns into an exception. */
  predicate IsHttpError(status: int) {
    400 <= status < 600
  }

  /** The reply is a successful response whose body has a second element. */
  predicate Usable(reply: Reply) {
    reply.Answered? && !IsHttpError(reply.status) && reply.body.JsonArray? && |reply.body.elems| >= 2
  }

  const Nothing := TextList([])

  /** Success returns element 1 of the decoded array unchanged; every failure
      is reported once and returns the empty list instead of raising. */
  function Fetch(reply: Reply): (r: Report)
    ensures r.error.None? <==> Usable(reply)
    ensures Usable(reply) ==> r.result == reply.body.elems[1]
    ensures r.error.Some? ==> r.result == Nothing
    ensures reply.TimedOut? <==> r.error == Some(Timeout)
    ensures r.error == Some(UnexpectedFormat) <==>
              reply.Answered? && !IsHttpError(reply.status) && !Usable(reply)
  {
    match reply
    case TimedOut => Report(Nothing, Some(Timeout))
    case Unreachable(detail) => Report(Nothing, Some(RequestFailed(Transport(detail))))
    case Answered(status, body) =>
      if IsHttpError(status) then Report(Nothing, Some(RequestFailed(HttpStatus(status))))
      else if body.NotJson? || |body.elems| < 2 then Report(Nothing, Some(UnexpectedFormat))
      else Report(body.elems[1], None)
  }

  /** Python's truth value of the fetched value: an empty string or an empty
      list is false (`not suggestions`). */
  predicate PyFalsy(v: Value) {
    match v
    case Text(s) => s == ""
    case TextList(items) => items == []
  }

  /** Python's `len` of the fetched value: characters of a string, elements of a list. */
  function PyLen(v: Value): nat {
    match v
    case Text(s) => |s|
    case TextList(items) => |items|
  }

  /** The fetched value as the display step iterates it: a list as it is, a
      string character by character (Python iterates a `str` that way). The
      result is empty exactly when Python finds the value false, and has
      Python's `len` of it. */
  function AsList(v: Value): (r: seq<string>)
    ensures v.TextList? ==> r == v.items
    ensures v.Text? ==> |r| == |v.s| && forall i :: 0 <= i < |r| ==> r[i] == [v.s[i]]
    ensures r == [] <==> PyFalsy(v)
    ensures |r| == PyLen(v)
  {
    match v
    case TextList(items) => items
    case Text(s) => seq(|s|, i requires 0 <= i < |s| => [s[i]])
  }

  /** A well-formed response `[query, [s1, ..., sn]]` yields exactly
      `[s1, ..., sn]`, whatever the echoed query. */
  lemma SuccessYieldsSuggestions(status: int, query: string, suggestions: seq<string>)
    requires 200 <= status < 300
    ensures Fetch(Answered(status, JsonArray([Text(query), TextList(suggestions)]))).error.None?
    ensures AsList(Fetch(Answered(status, JsonArray([Text(query), TextList(suggestions)]))).result) == suggestions
  {
  }

  /** Corollary of `Fetch` and `AsList`: every failure reaches the display as an
      empty suggestion list. */
  lemma FailureYieldsNoSuggestions(reply: Reply)
    requires !Usable(reply)
    ensures Fetch(reply).error.Some?
    ensures AsList(Fetch(reply).result) == []
  {
  }
}

=== FILE: language.dfy ===
/** Language selection (`get_language_choice`): one answer at a time until an
    answer is accepted. */
module Language {
  import opened Wrappers
  import opened Text
  import opened Config

  /** The language the command loop sends with every query and whether it
      shows text right to left. */
  datatype Binding = Binding(code: string, rtl: bool)

  /** A blank answer picks English, whatever the table holds. */
  const DefaultBinding := Binding("en", false)

  /** The binding a table offers: the default, or one of its entries. */
  ghost predicate Offered(table: Table, b: Binding) {
    b == DefaultBinding || exists key :: key in table && b == Binding(table[key].code, table[key].rtl)
  }

  /** The answer to one selection prompt: a binding, or `None` when the answer
      is rejected and the prompt is shown again. */
  function Choose(table: Table, answer: string): (r: Option<Binding>)
    ensures AllSpace(answer) ==> r == Some(DefaultBinding)
    ensures !AllSpace(answer) ==> (r.Some? <==> Trim(answer) in table)
    ensures !AllSpace(answer) && Trim(answer) in table ==>
              r == Some(Binding(table[Trim(answer)].code, table[Trim(answer)].rtl))
    ensures r.Some? ==> Offered(table, r.value)
  {
    TrimEmptyIffBlank(answer);
    var choice := Trim(answer);
    if choice == [] then Some(DefaultBinding)
    else if choice in table then Some(Binding(table[choice].code, table[choice].rtl))
    else None
  }

  /** The selection prompt over a sequence of answers: it reads answers until
      one is accepted. `used` is the number of answers read; when none is
      accepted, all of them were read and `b` is `None`. */
  method Select(table: Table, answers: seq<string>) returns (b: Option<Binding>, used: nat)
    ensures used <= |answers|
    ensures forall i :: 0 <= i < |answers| && i < used - 1 ==> Choose(table, answers[i]).None?
    ensures b.Some? ==> 0 < used && b == Choose(table, answers[used - 1])
    ensures b.None? ==> used == |answers| && forall i :: 0 <= i < |answers| ==> Choose(table, answers[i]).None?
  {
    used := 0;
    b := None;
    while used < |answers|
      invariant used <= |answers|
      invariant forall i :: 0 <= i < used ==> Choose(table, answers[i]).None?
    {
      var r := Choose(table, answers[used]);
      used := used + 1;
      if r.Some? {
        b := r;
        return;
      }
    }
  }
}

=== FILE: loop_properties.dfy ===
/** What the interactive loop promises, stated over single steps and over
    whole runs of the state machine in `Session`. */
module LoopProperties {
  import opened Wrappers
  import opened Text
  import opened Config
  import opened Language
  import opened Fetcher
  import opened Display
  import opened Commands
  import opened Session

  /** An exit word, in any case and with any surrounding whitespace, ends the
      loop at once: no fetch, no continue prompt, binding untouched. */
  lemma ExitWordEndsLoop(env: Env, s: State, line: string)
    requires s.phase.Reading? && s.binding.Some?
    requires CaseVariant(Trim(line), "quit") || CaseVariant(Trim(line), "exit") || CaseVariant(Trim(line), "q")
    ensures Step(env, s, line).next == s.(phase := Finished(Quitted))
    ensures Step(env, s, line).next.binding == s.binding
    ensures Step(env, s, line).events == [Farewell(Quitted)]
  {
    QuitInAnyCase(line);
  }

  /** "lang", in any case, reopens the language prompt on a freshly loaded
      table without fetching and without touching the binding yet. */
  lemma LangReopensSelection(env: Env, s: State, line: string)
    requires s.phase.Reading? && s.binding.Some?
    requires CaseVariant(Trim(line), "lang")
    ensures Step(env, s, line).next.phase == Choosing(Load(s.file).table)
    ensures Step(env, s, line).next == s.(phase := Choosing(Load(s.file).table), file := Load(s.file).file)
    ensures Step(env, s, line).next.binding == s.binding
    ensures Step(env, s, line).next.queries == s.queries
    ensures Step(env, s, line).events == []
  {
    ChangeLanguageInAnyCase(line);
  }

  /** After "lang", an accepted answer is the new binding and the loop is back
      at the keyword prompt; a rejected one leaves everything as it was. */
  lemma LangThenAnswer(env: Env, s: State, line: string, answer: string)
    requires s.phase.Reading? && s.binding.Some?
    requires CaseVariant(Trim(line), "lang")
    ensures var mid := Step(env, s, line).next;
            var last := Step(env, mid, answer);
            match Choose(Load(s.file).table, answer)
            case Some(b) => last.next.phase.Reading? && last.next.binding == Some(b) && last.events == [Bound(b)]
            case None => last.next == mid && last.events == [ChoiceRejected]
  {
    LangReopensSelection(env, s, line);
  }

  /** At any language prompt, the first one after start-up included, an
      accepted answer becomes the binding and the loop moves to the keyword
      prompt; a rejected one leaves the state as it was. */
  lemma AnswerAtLanguagePrompt(env: Env, s: State, answer: string)
    requires s.phase.Choosing?
    ensures var r := Step(env, s, answer);
            match Choose(s.phase.table, answer)
            case Some(b) => r.next == s.(phase := Reading, binding := Some(b)) && r.events == [Bound(b)]
            case None => r.next == s && r.events == [ChoiceRejected]
  {
    assert Step(env, s, answer) == ChooseStep(s, s.phase.table, answer);
  }

  /** One rejection event per rejected answer. */
  function Rejections(n: nat): (r: seq<Event>)
    ensures |r| == n
    ensures forall i :: 0 <= i < n ==> r[i] == ChoiceRejected
  {
    if n == 0 then [] else [ChoiceRejected] + Rejections(n - 1)
  }

  /** The language prompt as a run over its answers: every rejected answer
      leaves the prompt open, and the first accepted one binds it and leaves. */
  lemma {:induction false} PromptRunsUntilAccepted(env: Env, s: State, rejected: seq<string>, line: string)
    requires s.phase.Choosing?
    requires forall i :: 0 <= i < |rejected| ==> Choose(s.phase.table, rejected[i]).None?
    requires Choose(s.phase.table, line).Some?
    ensures Run(env, s, rejected + [line])
            == Outcome(s.(phase := Reading, binding := Choose(s.phase.table, line)),
                       Rejections(|rejected|) + [Bound(Choose(s.phase.table, line).value)])
    decreases |rejected|
  {
    if rejected == [] {
      assert rejected + [line] == [line];
      PromptAcceptsOne(env, s, line);
    } else {
      var tail := rejected[1..];
      assert rejected == [rejected[0]] + tail;
      PromptRunsUntilAccepted(env, s, tail, line);
      PromptRejectsBefore(env, s, rejected[0], tail, line);
    }
  }

  /** One more rejected answer in front of a prompt run adds one rejection. */
  lemma PromptRejectsBefore(env: Env, s: State, first: string, tail: seq<string>, line: string)
    requires s.phase.Choosing?
    requires Choose(s.phase.table, first).None? && Choose(s.phase.table, line).Some?
    requires Run(env, s, tail + [line])
             == Outcome(s.(phase := Reading, binding := Choose(s.phase.table, line)),
                        Rejections(|tail|) + [Bound(Choose(s.phase.table, line).value)])
    ensures Run(env, s, [first] + tail + [line])
            == Outcome(s.(phase := Reading, binding := Choose(s.phase.table, line)),
                       Rejections(|tail| + 1) + [Bound(Choose(s.phase.table, line).value)])
  {
    assert [first] + tail + [line] == [first] + (tail + [line]);
    PromptRejectsOne(env, s, first, tail + [line]);
    var bound := [Bound(Choose(s.phase.table, line).value)];
    assert [ChoiceRejected] + (Rejections(|tail|) + bound) == [ChoiceRejected] + Rejections(|tail|) + bound;
  }

  /** A rejected answer adds one rejection and leaves the prompt open. */
  lemma PromptRejectsOne(env: Env, s: State, line: string, lines: seq<string>)
    requires s.phase.Choosing?
    requires Choose(s.phase.table, line).None?
    ensures var tail := Run(env, s, lines);
            Run(env, s, [line] + lines) == Outcome(tail.next, [ChoiceRejected] + tail.events)
  {
    AnswerAtLanguagePrompt(env, s, line);
    RunCons(env, s, line, lines);
  }

  /** An accepted answer binds and leaves the prompt. */
  lemma PromptAcceptsOne(env: Env, s: State, line: string)
    requires s.phase.Choosing?
    requires Choose(s.phase.table, line).Some?
    ensures Run(env, s, [line])
            == Outcome(s.(phase := Reading, binding := Choose(s.phase.table, line)), [Bound(Choose(s.phase.table, line).value)])
  {
    AnswerAtLanguagePrompt(env, s, line);
    RunCons(env, s, line, []);
    assert [line] + [] == [line];
  }

  /** When every answer is rejected, the prompt is still open after all of them. */
  lemma {:induction false} PromptRejectsAll(env: Env, s: State, answers: seq<string>)
    requires s.phase.Choosing?
    requires forall i :: 0 <= i < |answers| ==> Choose(s.phase.table, answers[i]).None?
    ensures Run(env, s, answers) == Outcome(s, Rejections(|answers|))
    decreases |answers|
  {
    if answers != [] {
      assert answers == [answers[0]] + answers[1..];
      PromptRejectsOne(env, s, answers[0], answers[1..]);
      PromptRejectsAll(env, s, answers[1..]);
    }
  }

  /** `Language.Select` and the session's language prompt agree: the loop fed
      the answers `Select` read ends bound to `Select`'s result, at the keyword
      prompt; when `Select` accepts nothing, the loop is still at the prompt. */
  method SelectAgreesWithPrompt(env: Env, s: State, answers: seq<string>) returns (b: Option<Binding>, used: nat)
    requires s.phase.Choosing?
    ensures used <= |answers|
    ensures b.Some? ==> Run(env, s, answers[..used]).next == s.(phase := Reading, binding := b)
    ensures b.None? ==> used == |answers| && Run(env, s, answers).next == s
  {
    b, used := Select(s.phase.table, answers);
    if b.Some? {
      var rejected := answers[..used - 1];
      assert answers[..used] == rejected + [answers[used - 1]];
      PromptRunsUntilAccepted(env, s, rejected, answers[used - 1]);
    } else {
      PromptRejectsAll(env, s, answers);
    }
  }

  /** A blank keyword changes nothing and fetches nothing. */
  lemma BlankKeywordChangesNothing(env: Env, s: State, line: string)
    requires s.phase.Reading? && s.binding.Some?
    requires AllSpace(line)
    ensures Step(env, s, line).next == s
    ensures Step(env, s, line).events == [KeywordRejected]
  {
    WhitespaceIsBlank(line);
  }

  /** Any other keyword is fetched exactly once, with the bound language code,
      and listed exactly once, with the bound direction, even when the fetch
      came back empty; then the continue prompt follows. */
  lemma SearchFetchesOnceThenAsks(env: Env, s: State, line: string)
    requires s.phase.Reading? && s.binding.Some?
    requires Classify(line).Search?
    ensures var k := Trim(line);
            var b := s.binding.value;
            var q := Query(s.queries, k, b.code);
            var r := Step(env, s, line);
            && r.next == s.(phase := Asking, queries := s.queries + 1)
            && r.next.phase == Asking && r.next.binding == s.binding
            && r.events[1] == Fetched(q)
            && Count(r.events, IsFetch) == 1
            && Count(r.events, IsShow) == 1
            && r.events[|r.events| - 2] == Shown(b.rtl, Render(env.bidi, k, AsList(Fetch(env.net(q)).result), b.rtl))
            && r.events[|r.events| - 1] == AskedToContinue
  {
    var k := Trim(line);
    var b := s.binding.value;
    var q := Query(s.queries, k, b.code);
    var r := Step(env, s, line);
    assert r == SearchStep(env, s, k);
    if Fetch(env.net(q)).error.Some? {
      CountOne(r.events, IsShow, 3);
    } else {
      CountOne(r.events, IsShow, 2);
    }
  }

  /** A failed fetch is reported once and still listed, as "no suggestions". */
  lemma FailedFetchStillListed(env: Env, s: State, line: string)
    requires s.phase.Reading? && s.binding.Some?
    requires Classify(line).Search?
    requires !Usable(env.net(Query(s.queries, Trim(line), s.binding.value.code)))
    ensures var r := Step(env, s, line);
            && |r.events| == 5
            && r.events[2].FetchFailed?
            && r.events[3].Shown? && r.events[3].lines[2..] == [NoneFound]
  {
    FailureYieldsNoSuggestions(env.net(Query(s.queries, Trim(line), s.binding.value.code)));
  }

  /** The listing of a fetched value follows Python's reading of it: "no
      suggestions" exactly when the value is false, and otherwise a count
      equal to its `len`. */
  lemma ListingFollowsPythonTruth(bidi: string -> string, keyword: string, v: Value, rtl: bool)
    ensures PyFalsy(v) <==> Render(bidi, keyword, AsList(v), rtl)[2..] == [NoneFound]
    ensures !PyFalsy(v) ==>
              var lines := Render(bidi, keyword, AsList(v), rtl);
              lines[|lines| - 1] == Total(PyLen(v))
  {
    var lines := Render(bidi, keyword, AsList(v), rtl);
    if !PyFalsy(v) {
      assert lines[2] != NoneFound;
    }
  }

  /** At the continue prompt, "n" or "no" in any case ends the loop; every
      other answer goes back to the keyword prompt, a blank one included. */
  lemma ContinueAnswer(env: Env, s: State, answer: string)
    requires s.phase.Asking? && s.binding.Some?
    ensures Step(env, s, answer).next.phase ==
              if Trim(answer) in {"n", "N", "no", "No", "nO", "NO"} then Finished(Declined) else Reading
    ensures Step(env, s, answer).next.binding == s.binding
    ensures Count(Step(env, s, answer).events, IsFetch) == 0
    ensures AllSpace(answer) ==> Step(env, s, answer).next.phase == Reading
    ensures Step(env, s, answer).next == s.(phase := Step(env, s, answer).next.phase)
  {
    DeclinesIff(answer);
    if AllSpace(answer) {
      BlankAnswerContinues(answer);
    }
  }

  /** Once finished, the loop reads no further line. */
  lemma {:induction false} FinishedReadsNothing(env: Env, s: State, lines: seq<string>)
    requires s.phase.Finished?
    ensures Run(env, s, lines) == Outcome(s, [])
    decreases |lines|
  {
    if lines != [] {
      FinishedReadsNothing(env, s, lines[1..]);
    }
  }

  /** The binding in force at position `i` of a trace fits the event there. */
  lemma {:induction false} UsesBindingAt(events: seq<Event>, b: Option<Binding>, i: nat)
    requires UsesBinding(events, b)
    requires i < |events|
    ensures Fits(events[i], LastBinding(events[..i], b))
    decreases i
  {
    if i > 0 {
      UsesBindingAt(events[1..], After(events[0], b), i - 1);
      assert events[1..][..i - 1] == events[..i][1..];
      assert events[1..][i - 1] == events[i];
    }
  }

  /** In a whole session, every fetch carries the language code, and every
      listing the direction, chosen at the most recent language prompt. */
  lemma FetchesUseLatestChoice(env: Env, file: Option<Table>, lines: seq<string>)
    ensures var events := Run(env, Start(file), lines).events;
            forall i :: 0 <= i < |events| ==>
              && (events[i].Fetched? ==> exists b :: LastBinding(events[..i], None) == Some(b) && events[i].q.lang == b.code)
              && (events[i].Shown? ==> exists b :: LastBinding(events[..i], None) == Some(b) && events[i].rtl == b.rtl)
  {
    var events := Run(env, Start(file), lines).events;
    forall i | 0 <= i < |events|
      ensures events[i].Fetched? ==> exists b :: LastBinding(events[..i], None) == Some(b) && events[i].q.lang == b.code
      ensures events[i].Shown? ==> exists b :: LastBinding(events[..i], None) == Some(b) && events[i].rtl == b.rtl
    {
      UsesBindingAt(events, None, i);
    }
  }

  /** The per-step counts behind the whole-run ones: a step fetches, lists and
      asks to continue equally often, and says farewell only as its one event,
      leaving the loop finished. */
  lemma StepShape(env: Env, s: State, line: string)
    requires Valid(s)
    ensures var r := Step(env, s, line);
            && Count(r.events, IsFetch) == Count(r.events, IsShow) == Count(r.events, IsAsk)
            && (forall i :: 0 <= i < |r.events| && r.events[i].Farewell? ==> |r.events| == 1 && r.next.phase.Finished?)
            && (r.next.phase.Finished? ==> s.phase.Finished? || r.events == [Farewell(r.next.phase.how)])
  {
    var r := Step(env, s, line);
    match s.phase
    case Choosing(table) =>
      assert r == ChooseStep(s, table, line);
      QuietShape(r.events);
    case Reading =>
      match Classify(line) {
        case Search(k) =>
          assert r == SearchStep(env, s, k);
          SearchShape(env, s, k);
        case _ =>
          QuietShape(r.events);
      }
    case Asking =>
      assert r == AskStep(s, line);
      QuietShape(r.events);
    case Finished(_) =>
      QuietShape(r.events);
  }

  lemma QuietShape(events: seq<Event>)
    requires |events| <= 1
    requires forall i :: 0 <= i < |events| ==> !events[i].Fetched? && !events[i].Shown? && events[i] != AskedToContinue
    ensures Count(events, IsFetch) == 0 && Count(events, IsShow) == 0 && Count(events, IsAsk) == 0
  {
    CountNone(events, IsFetch);
    CountNone(events, IsShow);
    CountNone(events, IsAsk);
  }

  lemma SearchShape(env: Env, s: State, keyword: string)
    requires s.phase.Reading? && s.binding.Some?
    ensures var r := SearchStep(env, s, keyword);
            && Count(r.events, IsFetch) == 1 && Count(r.events, IsShow) == 1 && Count(r.events, IsAsk) == 1
            && (forall i :: 0 <= i < |r.events| ==> !r.events[i].Farewell?)
            && !r.next.phase.Finished?
  {
    var r := SearchStep(env, s, keyword);
    var last := |r.events| - 1;
    CountOne(r.events, IsShow, last - 1);
    CountOne(r.events, IsAsk, last);
  }

  /** Over a whole run: as many listings and continue prompts as fetches; at
      most one farewell, as the very last event, and the loop ends finished
      exactly when it said farewell (or had already finished). */
  lemma {:induction false} RunShape(env: Env, s: State, lines: seq<string>)
    requires Valid(s)
    ensures var r := Run(env, s, lines);
            && Count(r.events, IsFetch) == Count(r.events, IsShow) == Count(r.events, IsAsk)
            && (forall i :: 0 <= i < |r.events| && r.events[i].Farewell? ==> i == |r.events| - 1)
            && (r.next.phase.Finished? <==> s.phase.Finished? || (r.events != [] && r.events[|r.events| - 1].Farewell?))
    decreases |lines|
  {
    var r := Run(env, s, lines);
    if lines != [] {
      var first := Step(env, s, lines[0]);
      var rest := Run(env, first.next, lines[1..]);
      assert r.events == first.events + rest.events;
      StepShape(env, s, lines[0]);
      RunShape(env, first.next, lines[1..]);
      CountAppend(first.events, rest.events, IsFetch);
      CountAppend(first.events, rest.events, IsShow);
      CountAppend(first.events, rest.events, IsAsk);
      if first.next.phase.Finished? {
        FinishedReadsNothing(env, first.next, lines[1..]);
        assert r.events == first.events;
      }
      forall i | 0 <= i < |r.events| && r.events[i].Farewell?
        ensures i == |r.events| - 1
      {
        if i < |first.events| {
          assert first.events[i].Farewell?;
        } else {
          assert rest.events[i - |first.events|].Farewell?;
        }
      }
    }
  }
}

=== FILE: scenarios.dfy ===
/** Whole sessions on concrete input, starting from a missing configuration
    file and a network that answers every query with one fixed response. */
module Scenarios {
  import opened Wrappers
  import opened Text
  import opened Config
  import opened Language
  import opened Fetcher
  import opened Display
  import opened Commands
  import opened Session

  /** The Hebrew word for "hello" and the suggestion "hello world". */
  const Shalom: string := "\U{5e9}\U{5dc}\U{5d5}\U{5dd}"
  const ShalomOlam: string := "\U{5e9}\U{5dc}\U{5d5}\U{5dd} \U{5e2}\U{5d5}\U{5dc}\U{5dd}"

  function Always(reply: Reply): Query -> Reply {
    q => reply
  }

  /** A run over one line is that line's step. */
  lemma RunSingle(env: Env, s: State, line: string, first: Outcome)
    requires Valid(s) && Step(env, s, line) == first
    ensures Run(env, s, [line]) == first
  {
    RunCons(env, s, line, []);
    assert [line] + [] == [line] && first.events + [] == first.events;
  }

  /** A run is its first step followed by the run on the remaining lines. */
  lemma Prepend(env: Env, s: State, line: string, rest: seq<string>, first: Outcome, tail: Outcome)
    requires Valid(s) && Step(env, s, line) == first && Run(env, first.next, rest) == tail
    ensures Run(env, s, [line] + rest) == Outcome(tail.next, first.events + tail.events)
  {
    RunCons(env, s, line, rest);
  }

  /** The concrete lines below contain no whitespace at either end and no
      upper-case letters, so they classify as written. */
  lemma CatIsSearched()
    ensures Classify("cat") == Search("cat")
  {
    TrimKeepsTrimmed("cat");
    assert Lower("cat") == "cat";
  }

  lemma ShalomIsSearched()
    ensures Classify(Shalom) == Search(Shalom)
  {
    TrimKeepsTrimmed(Shalom);
    assert Lower(Shalom) == Shalom;
  }

  lemma QuitWord()
    ensures Classify("quit") == Quit && !Declines("quit")
  {
    TrimKeepsTrimmed("quit");
    assert Lower("quit") == "quit";
  }

  lemma Answers()
    ensures Declines("n") && !Declines("y")
  {
    TrimKeepsTrimmed("n");
    TrimKeepsTrimmed("y");
    assert Lower("n") == "n" && Lower("y") == "y";
  }

  const Hebrew := Binding("he", true)
  const English := Binding("en", false)

  /** The state after a language answer, before any fetch. */
  function Bound0(b: Binding): State {
    State(Reading, Some(b), Some(DefaultTable), 0)
  }

  /** The state after the first search, waiting at the continue prompt. */
  function Asking1(b: Binding): State {
    State(Asking, Some(b), Some(DefaultTable), 1)
  }

  const HebrewReply := Answered(200, JsonArray([Text(Shalom), TextList([ShalomOlam])]))

  function HebrewListing(bidi: string -> string): seq<Line> {
    [Header(bidi(Shalom)), Rule(|bidi(Shalom)| + 35), Item(1, bidi(ShalomOlam)), Total(1)]
  }

  lemma HebrewChoice(env: Env)
    ensures Step(env, Start(None), "2") == Outcome(Bound0(Hebrew), [Bound(Hebrew)])
  {
    TrimKeepsTrimmed("2");
  }

  lemma HebrewSearch(bidi: string -> string)
    ensures Step(Env(Always(HebrewReply), bidi), Bound0(Hebrew), Shalom) == Outcome(Asking1(Hebrew), HebrewTrace(bidi))
  {
    ShalomIsSearched();
    var env := Env(Always(HebrewReply), bidi);
    assert Step(env, Bound0(Hebrew), Shalom) == SearchStep(env, Bound0(Hebrew), Shalom);
    SuccessYieldsSuggestions(200, Shalom, [ShalomOlam]);
    SearchTrace(env, Bound0(Hebrew), Shalom);
    HebrewRendered(bidi);
  }

  lemma HebrewRendered(bidi: string -> string)
    ensures Render(bidi, Shalom, [ShalomOlam], true) == HebrewListing(bidi)
  {
    var r := Render(bidi, Shalom, [ShalomOlam], true);
    assert |r| == 4 && r[2] == Item(1, bidi(ShalomOlam));
  }

  /** A search whose fetch succeeds, written out event by event. */
  lemma SearchTrace(env: Env, s: State, keyword: string)
    requires s.phase.Reading? && s.binding.Some?
    requires Usable(env.net(Query(s.queries, keyword, s.binding.value.code)))
    ensures var b := s.binding.value;
            var q := Query(s.queries, keyword, b.code);
            SearchStep(env, s, keyword)
            == Outcome(s.(phase := Asking, queries := s.queries + 1),
                       [Announced(ProcessRtl(env.bidi, keyword, b.rtl)), Fetched(q),
                        Shown(b.rtl, Render(env.bidi, keyword, AsList(Fetch(env.net(q)).result), b.rtl)),
                        AskedToContinue])
  {
  }

  lemma DeclineStep(env: Env, b: Binding)
    ensures Step(env, Asking1(b), "n") == Outcome(Asking1(b).(phase := Finished(Declined)), [Farewell(Declined)])
  {
    Answers();
  }

  function HebrewTrace(bidi: string -> string): seq<Event> {
    [Announced(bidi(Shalom)), Fetched(Query(0, Shalom, "he")), Shown(true, HebrewListing(bidi)), AskedToContinue]
  }

  /** "n" at the continue prompt, as a run of one line. */
  lemma DeclineRun(env: Env, b: Binding)
    ensures Run(env, Asking1(b), ["n"]) == Outcome(Asking1(b).(phase := Finished(Declined)), [Farewell(Declined)])
  {
    DeclineStep(env, b);
    RunSingle(env, Asking1(b), "n", Outcome(Asking1(b).(phase := Finished(Declined)), [Farewell(Declined)]));
  }

  /** Choosing "2" at start-up, followed by any run from the Hebrew binding. */
  lemma HebrewThen(env: Env, rest: seq<string>, tail: Outcome)
    requires Run(env, Bound0(Hebrew), rest) == tail
    ensures Run(env, Start(None), ["2"] + rest) == Outcome(tail.next, [Bound(Hebrew)] + tail.events)
  {
    HebrewChoice(env);
    Prepend(env, Start(None), "2", rest, Outcome(Bound0(Hebrew), [Bound(Hebrew)]), tail);
  }

  /** The Hebrew search, followed by any run from the continue prompt. */
  lemma HebrewSearchThen(bidi: string -> string, rest: seq<string>, tail: Outcome)
    requires Run(Env(Always(HebrewReply), bidi), Asking1(Hebrew), rest) == tail
    ensures Run(Env(Always(HebrewReply), bidi), Bound0(Hebrew), [Shalom] + rest)
            == Outcome(tail.next, HebrewTrace(bidi) + tail.events)
  {
    HebrewSearch(bidi);
    Prepend(Env(Always(HebrewReply), bidi), Bound0(Hebrew), Shalom, rest, Outcome(Asking1(Hebrew), HebrewTrace(bidi)), tail);
  }

  /** The Hebrew session's trace, joined and written out event by event. */
  lemma HebrewEvents(bidi: string -> string)
    ensures [Bound(Hebrew)] + (HebrewTrace(bidi) + [Farewell(Declined)])
            == [Bound(Hebrew), Announced(bidi(Shalom)), Fetched(Query(0, Shalom, "he")),
                Shown(true, HebrewListing(bidi)), AskedToContinue, Farewell(Declined)]
  {
  }

  /** Choosing "2" selects Hebrew; the keyword is fetched with code "he" and
      listed right to left; "n" at the continue prompt ends the session. */
  lemma HebrewSessionEndsOnNo(bidi: string -> string)
    ensures var r := Run(Env(Always(HebrewReply), bidi), Start(None), ["2", Shalom, "n"]);
            && r.next.phase == Finished(Declined)
            && r.events == [
                 Bound(Hebrew),
                 Announced(bidi(Shalom)),
                 Fetched(Query(0, Shalom, "he")),
                 Shown(true, HebrewListing(bidi)),
                 AskedToContinue,
                 Farewell(Declined)]
  {
    var env := Env(Always(HebrewReply), bidi);
    var done := Asking1(Hebrew).(phase := Finished(Declined));
    DeclineRun(env, Hebrew);
    HebrewSearchThen(bidi, ["n"], Outcome(done, [Farewell(Declined)]));
    HebrewThen(env, [Shalom] + ["n"], Outcome(done, HebrewTrace(bidi) + [Farewell(Declined)]));
    assert ["2"] + ([Shalom] + ["n"]) == ["2", Shalom, "n"];
    HebrewEvents(bidi);
  }

  const CatReply := Answered(200, JsonArray([Text("cat"), TextList(["cat food", "cats"])]))

  const CatListing := [Header("cat"), Rule(38), Item(1, "cat food"), Item(2, "cats"), Total(2)]

  lemma EnglishChoice(env: Env)
    ensures Step(env, Start(None), "") == Outcome(Bound0(English), [Bound(English)])
  {
  }

  lemma CatSearch(bidi: string -> string)
    ensures Step(Env(Always(CatReply), bidi), Bound0(English), "cat") == Outcome(Asking1(English), CatTrace)
  {
    CatIsSearched();
    var env := Env(Always(CatReply), bidi);
    assert Step(env, Bound0(English), "cat") == SearchStep(env, Bound0(English), "cat");
    SuccessYieldsSuggestions(200, "cat", ["cat food", "cats"]);
    CatRendered(bidi);
  }

  lemma CatRendered(bidi: string -> string)
    ensures Render(bidi, "cat", ["cat food", "cats"], false) == CatListing
  {
    var r := Render(bidi, "cat", ["cat food", "cats"], false);
    assert |r| == 5 && r[2] == Item(1, "cat food") && r[3] == Item(2, "cats");
  }

  /** "quit" typed at the continue prompt is an answer, not a command. */
  lemma QuitAsAnswer(env: Env, b: Binding)
    ensures Step(env, Asking1(b), "quit") == Outcome(Asking1(b).(phase := Reading), [])
  {
    QuitWord();
  }

  const CatTrace := [Announced("cat"), Fetched(Query(0, "cat", "en")), Shown(false, CatListing), AskedToContinue]

  /** "quit" at the continue prompt, as a run of one line. */
  lemma QuitAnswerRun(env: Env, b: Binding)
    ensures Run(env, Asking1(b), ["quit"]) == Outcome(Asking1(b).(phase := Reading), [])
  {
    QuitAsAnswer(env, b);
    RunSingle(env, Asking1(b), "quit", Outcome(Asking1(b).(phase := Reading), []));
  }

  /** A blank choice at start-up, followed by any run from the English binding. */
  lemma EnglishThen(env: Env, rest: seq<string>, tail: Outcome)
    requires Run(env, Bound0(English), rest) == tail
    ensures Run(env, Start(None), [""] + rest) == Outcome(tail.next, [Bound(English)] + tail.events)
  {
    EnglishChoice(env);
    Prepend(env, Start(None), "", rest, Outcome(Bound0(English), [Bound(English)]), tail);
  }

  /** The search for "cat", followed by any run from the continue prompt. */
  lemma CatSearchThen(bidi: string -> string, rest: seq<string>, tail: Outcome)
    requires Run(Env(Always(CatReply), bidi), Asking1(English), rest) == tail
    ensures Run(Env(Always(CatReply), bidi), Bound0(English), ["cat"] + rest)
            == Outcome(tail.next, CatTrace + tail.events)
  {
    CatSearch(bidi);
    Prepend(Env(Always(CatReply), bidi), Bound0(English), "cat", rest, Outcome(Asking1(English), CatTrace), tail);
  }

  /** The English session's trace up to the continue answer, written out event by event. */
  lemma CatEvents()
    ensures [Bound(English)] + (CatTrace + [])
            == [Bound(English), Announced("cat"), Fetched(Query(0, "cat", "en")), Shown(false, CatListing), AskedToContinue]
  {
  }

  /** A blank choice selects English; "cat" is fetched with code "en" and
      listed unchanged. The next line answers the continue prompt, so "quit"
      there does not end the session: it only returns to the keyword prompt. */
  lemma QuitAtContinuePromptDoesNotEnd(bidi: string -> string)
    ensures var r := Run(Env(Always(CatReply), bidi), Start(None), ["", "cat", "quit"]);
            && r.next.phase == Reading
            && r.events == [
                 Bound(English),
                 Announced("cat"),
                 Fetched(Query(0, "cat", "en")),
                 Shown(false, CatListing),
                 AskedToContinue]
  {
    var env := Env(Always(CatReply), bidi);
    var back := Asking1(English).(phase := Reading);
    QuitAnswerRun(env, English);
    CatSearchThen(bidi, ["quit"], Outcome(back, []));
    EnglishThen(env, ["cat"] + ["quit"], Outcome(back, CatTrace + []));
    assert [""] + (["cat"] + ["quit"]) == ["", "cat", "quit"];
    CatEvents();
  }

  /** "quit" at the keyword prompt, as a run of one line. */
  lemma QuitRun(env: Env, s: State)
    requires s.phase.Reading? && s.binding.Some?
    ensures Run(env, s, ["quit"]) == Outcome(s.(phase := Finished(Quitted)), [Farewell(Quitted)])
  {
    QuitStep(env, s);
    RunSingle(env, s, "quit", Outcome(s.(phase := Finished(Quitted)), [Farewell(Quitted)]));
  }

  lemma ContinueThenQuit(env: Env, b: Binding)
    ensures Run(env, Asking1(b), ["y", "quit"])
            == Outcome(Asking1(b).(phase := Finished(Quitted)), [Farewell(Quitted)])
  {
    var back := Asking1(b).(phase := Reading);
    YesStep(env, b);
    QuitRun(env, back);
    Prepend(env, Asking1(b), "y", ["quit"], Outcome(back, []), Outcome(back.(phase := Finished(Quitted)), [Farewell(Quitted)]));
    assert ["y"] + ["quit"] == ["y", "quit"] && [] + [Farewell(Quitted)] == [Farewell(Quitted)];
  }

  lemma YesStep(env: Env, b: Binding)
    ensures Step(env, Asking1(b), "y") == Outcome(Asking1(b).(phase := Reading), [])
  {
    Answers();
  }

  lemma QuitStep(env: Env, s: State)
    requires s.phase.Reading? && s.binding.Some?
    ensures Step(env, s, "quit") == Outcome(s.(phase := Finished(Quitted)), [Farewell(Quitted)])
  {
    QuitWord();
  }

  /** The English session that quits at the keyword prompt ends on its farewell. */
  lemma QuitEvents()
    ensures var events := [Bound(English)] + (CatTrace + [Farewell(Quitted)]);
            events[|events| - 1] == Farewell(Quitted)
  {
  }

  /** Answering the continue prompt first and then typing "quit" does end it. */
  lemma QuitAtKeywordPromptEnds(bidi: string -> string)
    ensures var r := Run(Env(Always(CatReply), bidi), Start(None), ["", "cat"] + ["y", "quit"]);
            && r.next.phase == Finished(Quitted)
            && r.events[|r.events| - 1] == Farewell(Quitted)
  {
    var env := Env(Always(CatReply), bidi);
    var done := Asking1(English).(phase := Finished(Quitted));
    ContinueThenQuit(env, English);
    CatSearchThen(bidi, ["y", "quit"], Outcome(done, [Farewell(Quitted)]));
    EnglishThen(env, ["cat"] + ["y", "quit"], Outcome(done, CatTrace + [Farewell(Quitted)]));
    assert [""] + (["cat"] + ["y", "quit"]) == ["", "cat"] + ["y", "quit"];
    QuitEvents();
  }
}

=== FILE: session.dfy ===
/** The interactive loop (`main`) as a state machine driven by input lines.
    Each line read by `input()` is one step; the network and the right-to-left
    transform are supplied by an environment. The result of a run is the trace
    of what the loop did: bindings, fetches, listings, prompts and farewells. */
module Session {
  import opened Wrappers
  import opened Text
  import opened Config
  import opened Language
  import opened Fetcher
  import opened Display
  import opened Commands

  /** How the loop ended: an exit word, or "n"/"no" at the continue prompt. */
  datatype Exit = Quitted | Declined

  /** Which `input()` the next line answers. `Choosing` carries the table
      loaded when the selection prompt was entered. */
  datatype Phase = Choosing(table: Table) | Reading | Asking | Finished(how: Exit)

  /** The loop's state: phase, the `(lang, is_rtl)` binding (none before the
      first choice), the configuration file, and the number of fetches so far. */
  datatype State = State(phase: Phase, binding: Option<Binding>, file: Option<Table>, queries: nat)

  /** One request handed to the network: its serial number, keyword and language code. */
  datatype Query = Query(serial: nat, keyword: string, lang: string)

  /** What the loop does, in order. */
  datatype Event =
    | Bound(b: Binding)
    | ChoiceRejected
    | KeywordRejected
    | Announced(shown: string)
    | Fetched(q: Query)
    | FetchFailed(e: FetchError)
    | Shown(rtl: bool, lines: seq<Line>)
    | AskedToContinue
    | Farewell(how: Exit)

  /** The outside world: what the network answers to each query, and the
      reshaping/reordering transform used for right-to-left text. */
  datatype Env = Env(net: Query -> Reply, bidi: string -> string)

  datatype Outcome = Outcome(next: State, events: seq<Event>)

  /** A keyword or continue answer is only read once a language is bound. */
  predicate Valid(s: State) {
    (s.phase.Reading? || s.phase.Asking?) ==> s.binding.Some?
  }

  /** The binding in force after event `e`, when `b` was in force before it. */
  function After(e: Event, b: Option<Binding>): Option<Binding> {
    if e.Bound? then Some(e.b) else b
  }

  /** A fetch must use the code, and a listing the direction, of the binding in force. */
  predicate Fits(e: Event, b: Option<Binding>) {
    match e
    case Fetched(q) => b.Some? && q.lang == b.value.code
    case Shown(rtl, _) => b.Some? && rtl == b.value.rtl
    case _ => true
  }

  /** The binding in force after `events`, starting from `b`: the last `Bound`
      event, if any. */
  function LastBinding(events: seq<Event>, b: Option<Binding>): Option<Binding>
    decreases |events|
  {
    if events == [] then b else LastBinding(events[1..], After(events[0], b))
  }

  /** Every fetch uses the language code, and every listing the direction, of
      the binding in force at that point (starting from `b`). */
  predicate UsesBinding(events: seq<Event>, b: Option<Binding>)
    decreases |events|
  {
    events == [] || (Fits(events[0], b) && UsesBinding(events[1..], After(events[0], b)))
  }

  lemma {:induction false} LastBindingAppend(a: seq<Event>, c: seq<Event>, b: Option<Binding>)
    ensures LastBinding(a + c, b) == LastBinding(c, LastBinding(a, b))
    decreases |a|
  {
    if a == [] {
      assert a + c == c;
    } else {
      assert (a + c)[1..] == a[1..] + c;
      LastBindingAppend(a[1..], c, After(a[0], b));
    }
  }

  lemma {:induction false} UsesBindingAppend(a: seq<Event>, c: seq<Event>, b: Option<Binding>)
    ensures UsesBinding(a + c, b) <==> UsesBinding(a, b) && UsesBinding(c, LastBinding(a, b))
    decreases |a|
  {
    if a == [] {
      assert a + c == c;
    } else {
      assert (a + c)[1..] == a[1..] + c;
      UsesBindingAppend(a[1..], c, After(a[0], b));
    }
  }

  /** Events that bind nothing and fit `b` leave `b` in force. */
  lemma {:induction false} SteadyEvents(events: seq<Event>, b: Option<Binding>)
    requires forall i :: 0 <= i < |events| ==> !events[i].Bound? && Fits(events[i], b)
    ensures LastBinding(events, b) == b
    ensures UsesBinding(events, b)
    decreases |events|
  {
    if events != [] {
      SteadyEvents(events[1..], b);
    }
  }

  predicate IsFetch(e: Event) { e.Fetched? }
  predicate IsShow(e: Event) { e.Shown? }
  predicate IsAsk(e: Event) { e == AskedToContinue }
  predicate IsFarewell(e: Event) { e.Farewell? }

  /** How many of `events` satisfy `p`. */
  function Count(events: seq<Event>, p: Event -> bool): nat
    decreases |events|
  {
    if events == [] then 0 else (if p(events[0]) then 1 else 0) + Count(events[1..], p)
  }

  lemma {:induction false} CountAppend(a: seq<Event>, c: seq<Event>, p: Event -> bool)
    ensures Count(a + c, p) == Count(a, p) + Count(c, p)
    decreases |a|
  {
    if a == [] {
      assert a + c == c;
    } else {
      assert (a + c)[1..] == a[1..] + c;
      CountAppend(a[1..], c, p);
    }
  }

  lemma {:induction false} CountNone(events: seq<Event>, p: Event -> bool)
    requires forall i :: 0 <= i < |events| ==> !p(events[i])
    ensures Count(events, p) == 0
    decreases |events|
  {
    if events != [] {
      CountNone(events[1..], p);
    }
  }

  lemma {:induction false} CountOne(events: seq<Event>, p: Event -> bool, j: nat)
    requires j < |events|
    requires forall i :: 0 <= i < |events| ==> (p(events[i]) <==> i == j)
    ensures Count(events, p) == 1
    decreases |events|
  {
    if j == 0 {
      CountNone(events[1..], p);
    } else {
      CountOne(events[1..], p, j - 1);
    }
  }

  /** Program start: the configuration is loaded (or created) and the first
      selection prompt is shown; nothing is bound yet. */
  function Start(file: Option<Table>): (s: State)
    ensures s.phase.Choosing? && s.phase.table == Load(file).table
    ensures s.binding.None? && s.queries == 0
    ensures s.file.Some?
    ensures Valid(s)
  {
    var loaded := Load(file);
    State(Choosing(loaded.table), None, loaded.file, 0)
  }

  /** One answer to the language prompt: a blank answer or a table key binds a
      language and returns to the main loop; anything else asks again. */
  function ChooseStep(s: State, table: Table, answer: string): (r: Outcome)
    requires s.phase == Choosing(table)
    ensures Valid(r.next)
    ensures r.next.binding != s.binding ==> r.next.binding.Some? && r.events == [Bound(r.next.binding.value)]
    ensures r.next.binding == LastBinding(r.events, s.binding)
    ensures UsesBinding(r.events, s.binding)
    ensures r.next.queries == s.queries && Count(r.events, IsFetch) == 0
    ensures match Choose(table, answer)
            case Some(b) => r.next == s.(phase := Reading, binding := Some(b)) && r.events == [Bound(b)]
            case None => r.next == s && r.events == [ChoiceRejected]
  {
    match Choose(table, answer)
    case None => Outcome(s, [ChoiceRejected])
    case Some(b) => Outcome(s.(phase := Reading, binding := Some(b)), [Bound(b)])
  }

  /** The trace of one search under binding `b`: announce, fetch, the failure
      report when there is one, the listing, the continue prompt. */
  function SearchEvents(b: Option<Binding>, announce: Event, q: Query, error: Option<FetchError>, listing: seq<Line>): (r: seq<Event>)
    requires announce.Announced? && b.Some? && q.lang == b.value.code
    ensures |r| == (if error.Some? then 5 else 4)
    ensures r[0] == announce && r[1] == Fetched(q)
    ensures error.Some? ==> r[2] == FetchFailed(error.value)
    ensures r[|r| - 2] == Shown(b.value.rtl, listing) && r[|r| - 1] == AskedToContinue
    ensures LastBinding(r, b) == b && UsesBinding(r, b)
    ensures Count(r, IsFetch) == 1 && Count(r, IsShow) == 1 && Count(r, IsAsk) == 1
  {
    var shown := Shown(b.value.rtl, listing);
    var events :=
      if error.Some?
      then [announce, Fetched(q), FetchFailed(error.value), shown, AskedToContinue]
      else [announce, Fetched(q), shown, AskedToContinue];
    SteadyEvents(events, b);
    CountOne(events, IsFetch, 1);
    CountOne(events, IsShow, |events| - 2);
    CountOne(events, IsAsk, |events| - 1);
    events
  }

  /** A search: announce, fetch once with the bound code, list the result with
      the bound direction (also when it is empty), then ask to continue. */
  function SearchStep(env: Env, s: State, keyword: string): (r: Outcome)
    requires s.phase.Reading? && s.binding.Some?
    ensures Valid(r.next) && r.next.phase.Asking? && r.next.binding == s.binding
    ensures r.next.binding == LastBinding(r.events, s.binding)
    ensures UsesBinding(r.events, s.binding)
    ensures r.next.queries == s.queries + 1 && Count(r.events, IsFetch) == 1
    ensures r.next == s.(phase := Asking, queries := s.queries + 1)
    ensures var b := s.binding.value;
            var q := Query(s.queries, keyword, b.code);
            var report := Fetch(env.net(q));
            && |r.events| == (if report.error.Some? then 5 else 4)
            && r.events[0] == Announced(ProcessRtl(env.bidi, keyword, b.rtl))
            && r.events[1] == Fetched(q)
            && (report.error.Some? ==> r.events[2] == FetchFailed(report.error.value))
            && r.events[|r.events| - 2] == Shown(b.rtl, Render(env.bidi, keyword, AsList(report.result), b.rtl))
            && r.events[|r.events| - 1] == AskedToContinue
            && Count(r.events, IsShow) == 1 && Count(r.events, IsAsk) == 1
  {
    var b := s.binding.value;
    var q := Query(s.queries, keyword, b.code);
    var report := Fetch(env.net(q));
    var listing := Render(env.bidi, keyword, AsList(report.result), b.rtl);
    var events := SearchEvents(Some(b), Announced(ProcessRtl(env.bidi, keyword, b.rtl)), q, report.error, listing);
    Outcome(s.(phase := Asking, queries := s.queries + 1), events)
  }

  /** One keyword line in the main loop. */
  function ReadStep(env: Env, s: State, line: string): (r: Outcome)
    requires s.phase.Reading? && s.binding.Some?
    ensures Valid(r.next) && r.next.binding == s.binding
    ensures r.next.binding == LastBinding(r.events, s.binding)
    ensures UsesBinding(r.events, s.binding)
    ensures r.next.queries == s.queries + Count(r.events, IsFetch)
  {
    match Classify(line)
    case Quit => Outcome(s.(phase := Finished(Quitted)), [Farewell(Quitted)])
    case ChangeLanguage =>
      var loaded := Load(s.file);
      Outcome(s.(phase := Choosing(loaded.table), file := loaded.file), [])
    case Blank => Outcome(s, [KeywordRejected])
    case Search(keyword) => SearchStep(env, s, keyword)
  }

  /** One answer to the continue prompt. */
  function AskStep(s: State, answer: string): (r: Outcome)
    requires s.phase.Asking? && s.binding.Some?
    ensures Valid(r.next) && r.next.binding == s.binding
    ensures r.next.binding == LastBinding(r.events, s.binding)
    ensures UsesBinding(r.events, s.binding)
    ensures r.next.queries == s.queries && Count(r.events, IsFetch) == 0
    ensures r.next == s.(phase := if Declines(answer) then Finished(Declined) else Reading)
  {
    if Declines(answer) then Outcome(s.(phase := Finished(Declined)), [Farewell(Declined)])
    else Outcome(s.(phase := Reading), [])
  }

  /** The loop consumes one input line. Only a language choice changes the
      binding; once finished, nothing more happens. */
  function Step(env: Env, s: State, line: string): (r: Outcome)
    requires Valid(s)
    ensures Valid(r.next)
    ensures r.next.binding != s.binding ==> s.phase.Choosing? && r.next.binding.Some? && r.events == [Bound(r.next.binding.value)]
    ensures r.next.binding == LastBinding(r.events, s.binding)
    ensures UsesBinding(r.events, s.binding)
    ensures s.phase.Finished? ==> r == Outcome(s, [])
    ensures r.next.queries == s.queries + Count(r.events, IsFetch)
  {
    match s.phase
    case Choosing(table) => ChooseStep(s, table, line)
    case Reading => ReadStep(env, s, line)
    case Asking => AskStep(s, line)
    case Finished(_) => Outcome(s, [])
  }

  /** The loop fed a sequence of input lines. Lines after the loop finished
      are never read. */
  function Run(env: Env, s: State, lines: seq<string>): (r: Outcome)
    requires Valid(s)
    ensures Valid(r.next)
    ensures r.next.binding == LastBinding(r.events, s.binding)
    ensures UsesBinding(r.events, s.binding)
    ensures r.next.queries == s.queries + Count(r.events, IsFetch)
    decreases |lines|
  {
    if lines == [] then Outcome(s, [])
    else
      var first := Step(env, s, lines[0]);
      var rest := Run(env, first.next, lines[1..]);
      LastBindingAppend(first.events, rest.events, s.binding);
      UsesBindingAppend(first.events, rest.events, s.binding);
      CountAppend(first.events, rest.events, IsFetch);
      Outcome(rest.next, first.events + rest.events)
  }

  /** A run is its first step followed by the run on the remaining lines. */
  lemma RunCons(env: Env, s: State, line: string, rest: seq<string>)
    requires Valid(s)
    ensures var first := Step(env, s, line);
            var tail := Run(env, first.next, rest);
            Run(env, s, [line] + rest) == Outcome(tail.next, first.events + tail.events)
  {
    assert ([line] + rest)[1..] == rest;
  }

}

=== FILE: text.dfy ===
/** The two string operations applied to input lines: Python's `str.strip()`
    with no argument, applied to every line read, and `str.lower()`, applied
    only to keyword lines and continue answers (language answers are matched
    case-sensitively). */
module Text {

  /** Python's `str.isspace()` for a single character: the ASCII controls
      \t \n \v \f \r and \x1c-\x1f, the space, and the Unicode separators. */
  predicate IsSpace(c: char) {
    || c == ' '
    || '\t' <= c <= '\r'
    || '\U{1c}' <= c <= '\U{1f}'
    || c == '\U{85}'
    || c == '\U{a0}'
    || c == '\U{1680}'
    || '\U{2000}' <= c <= '\U{200a}'
    || c == '\U{2028}'
    || c == '\U{2029}'
    || c == '\U{202f}'
    || c == '\U{205f}'
    || c == '\U{3000}'
  }

  predicate AllSpace(s: string) {
    forall i :: 0 <= i < |s| ==> IsSpace(s[i])
  }

  /** The first position at or after `i` that is not whitespace (or `|s|`). */
  function SkipLeading(s: string, i: nat): (k: nat)
    requires i <= |s|
    ensures i <= k <= |s|
    ensures forall m :: i <= m < k ==> IsSpace(s[m])
    ensures k < |s| ==> !IsSpace(s[k])
    decreases |s| - i
  {
    if i < |s| && IsSpace(s[i]) then SkipLeading(s, i + 1) else i
  }

  /** The end of `s[lo..hi]` once trailing whitespace is dropped. */
  function SkipTrailing(s: string, lo: nat, hi: nat): (k: nat)
    requires lo <= hi <= |s|
    ensures lo <= k <= hi
    ensures forall m :: k <= m < hi ==> IsSpace(s[m])
    ensures k > lo ==> !IsSpace(s[k - 1])
  {
    if hi > lo && IsSpace(s[hi - 1]) then SkipTrailing(s, lo, hi - 1) else hi
  }

  /** `s.strip()`: the slice of `s` left after removing whitespace at both ends. */
  function Trim(s: string): (r: string)
    ensures exists i :: 0 <= i <= |s| - |r| && r == s[i..i + |r|]
                        && AllSpace(s[..i]) && AllSpace(s[i + |r|..])
    ensures r == [] || (!IsSpace(r[0]) && !IsSpace(r[|r| - 1]))
  {
    var lo := SkipLeading(s, 0);
    var hi := SkipTrailing(s, lo, |s|);
    assert AllSpace(s[..lo]);
    assert AllSpace(s[hi..]);
    s[lo..hi]
  }

  /** A line trims to nothing exactly when it is whitespace only. */
  lemma TrimEmptyIffBlank(s: string)
    ensures Trim(s) == [] <==> AllSpace(s)
  {
    var r := Trim(s);
    var i :| 0 <= i <= |s| - |r| && r == s[i..i + |r|]
              && AllSpace(s[..i]) && AllSpace(s[i + |r|..]);
    if r == [] {
      forall k | 0 <= k < |s|
        ensures IsSpace(s[k])
      {
        if k < i {
          assert s[k] == s[..i][k];
        } else {
          assert s[k] == s[i..][k - i];
        }
      }
    } else {
      assert r[0] == s[i];
    }
  }

  /** Text without whitespace at either end is left as it is. */
  lemma TrimKeepsTrimmed(s: string)
    requires s != [] && !IsSpace(s[0]) && !IsSpace(s[|s| - 1])
    ensures Trim(s) == s
  {
  }

  /** Trimming twice is the same as trimming once. */
  lemma TrimIdempotent(s: string)
    ensures Trim(Trim(s)) == Trim(s)
  {
    var r := Trim(s);
    if r != [] {
      assert SkipLeading(r, 0) == 0;
      assert SkipTrailing(r, 0, |r|) == |r|;
    }
  }

  predicate IsUpper(c: char) {
    'A' <= c <= 'Z'
  }

  predicate IsLowerLetter(c: char) {
    'a' <= c <= 'z'
  }

  function LowerChar(c: char): (d: char)
    ensures !IsUpper(d)
    ensures IsUpper(c) ==> IsLowerLetter(d) && d as int == c as int + 32
    ensures !IsUpper(c) ==> d == c
  {
    if IsUpper(c) then (c as int + 32) as char else c
  }

  /** `s.lower()` on ASCII letters; every other character is kept. */
  function Lower(s: string): (r: string)
    ensures |r| == |s|
    ensures forall i :: 0 <= i < |s| ==> r[i] == LowerChar(s[i])
  {
    if s == [] then [] else [LowerChar(s[0])] + Lower(s[1..])
  }

  /** A word made of lower-case ASCII letters only, such as the command words. */
  predicate IsLowerWord(w: string) {
    forall i :: 0 <= i < |w| ==> IsLowerLetter(w[i])
  }

  /** `t` spells `w` letter by letter, each letter in either case. */
  predicate CaseVariant(t: string, w: string) {
    && |t| == |w|
    && forall i :: 0 <= i < |w| ==> t[i] == w[i] || t[i] as int == w[i] as int - 32
  }

  /** Lower-casing matches a lower-case word exactly when the text is that
      word written in any mix of cases. */
  lemma LowerMatchesIffCaseVariant(t: string, w: string)
    requires IsLowerWord(w)
    ensures Lower(t) == w <==> CaseVariant(t, w)
  {
    if Lower(t) == w {
      forall i | 0 <= i < |w|
        ensures t[i] == w[i] || t[i] as int == w[i] as int - 32
      {
        assert Lower(t)[i] == LowerChar(t[i]);
      }
    }
    if CaseVariant(t, w) {
      forall i | 0 <= i < |w|
        ensures Lower(t)[i] == w[i]
      {
        if t[i] != w[i] {
          assert IsUpper(t[i]);
        }
      }
    }
  }
}

=== FILE: wrappers.dfy ===
/** The optional value used wherever the program answers "nothing" (a rejected
    language choice, no fetch error, a configuration file that does not exist). */
module Wrappers {

  datatype Option<+T> = None | Some(value: T)
}
